=== FILE: README.md ===
# mini-webpack core in Dafny

This project models the core of a small JavaScript bundler and proves properties of the model. The bundler:

- reads an entry file (`./example/main.js`);
- runs the configured loader rules over each file's text;
- collects the file's `import` specifiers;
- walks the imports breadth first, giving every asset an id from one global counter;
- projects every asset to `{id, code, mapping}`;
- lets plugin callbacks on the `emitFile` hook choose the output path;
- writes a bundle whose runtime loader runs module 0 through `require` and `localRequire`.

One plugin exists, `ChangeOutputPath`. It sends the bundle to `./dist/<hashCode("bundle")>.js`, which is `./dist/769601666.js`.

Modules, one per piece of the program:

- `JsString`: UTF-16 code units (what `charCodeAt` reads) and decimal text (what `"" + n` gives).
- `HashCode`: `hashCode` from ChangeOutputPath.js.
- `OutputPlugin`: the `apply` tap of ChangeOutputPath.js.
- `Loaders`: the loader-rule loop of `createAsset`. It includes the in-place `reverse()` of loader arrays.
- `Graph`: `createAsset` and `createGraph`. They are modelled as written, with no deduplication. Every specifier resolves against `"./example"`.
- `Hooks`: the `emitFile` `SyncHook`, as an ordered list of callbacks.
- `Emit`: `initPlugins` and `build`.
- `Runtime`: the loader at the top of both generated bundles. It has no cache.
- `Bundles`: the module tables of `dist/bundle.js` and `dist/769601666.js`.
- `Prototype`: the path-keyed loader of `example/bundle.js`.
- `Bundler`: the configuration and the top-level sequence. It also shows that a finished graph becomes a bundle whose bootstrap completes.

The model follows the code as written, which differs from a production bundler in four ways:

- The code never deduplicates assets. Every import occurrence builds a new asset with a fresh id, so an import cycle makes `createGraph` run forever. A production bundler deduplicates by resolved path.
- Specifiers resolve against the fixed directory `"./example"`, not against the importer's directory.
- The generated loader has no module cache and no `loading` state. Every `require` runs the factory again, and a cyclic table recurses until the stack overflows.
- Rules are applied in declaration order. A loader array is reversed in place each time a file matches, so the next matching file sees the original order.

Factories are modelled as the ordered list of specifiers they pass to `require`. For an asset built by `createGraph`, the model takes that list to be its `deps`. This is an assumption about the module transform, which holds for modules whose only module syntax is `import` declarations of distinct sources (see `Bundler.TableOf` under "## Left out").

## Model

| member | source | states |
|---|---|---|
| JsString.BmpUtf16 | ChangeOutputPath.js:11-14 | For a string with no character above U+FFFF, `length` is the number of characters and `charCodeAt(i)` is the i-th character's code |
| JsString.ParseDecimalInverts | ChangeOutputPath.js:4 | The decimal text that number-to-string concatenation puts into the file name reads back as the same number |
| JsString.DecimalInjective | ChangeOutputPath.js:4 | Different numbers have different decimal texts |
| HashCode.StepIsMod | ChangeOutputPath.js:14-15 | One loop iteration, with its conditional `%=`, equals `(31*h + c) mod 2^31` and stays below 2^31 |
| HashCode.FoldIsHornerMod | ChangeOutputPath.js:10-16 | After every iteration the accumulator is the Horner polynomial of the code units read so far, reduced mod 2^31 |
| HashCode.HornerIsPolySum | ChangeOutputPath.js:13-16 | The Horner form equals the sum of c_i * 31^(n-1-i) |
| HashCode.HashSnoc | ChangeOutputPath.js:13-16 | `hashCode(s + c) == (31*hashCode(s) + c) mod 2^31` |
| HashCode.Hash | ChangeOutputPath.js:9-18 | `hashCode(str)` is below 2^31 |
| HashCode.HashIsPolySum | ChangeOutputPath.js:9-18 | `hashCode(str)` is the sum of c_i * 31^(n-1-i) over the UTF-16 code units of `str`, reduced mod 2^31 |
| HashCode.HashCodeLoop | ChangeOutputPath.js:9-18 | The loop as written returns the sum of c_i * 31^(n-1-i) mod 2^31 over the UTF-16 code units, so the result is in [0, 2^31) |
| HashCode.HashOfEmpty | ChangeOutputPath.js:10-13 | `hashCode("")` is 0 |
| HashCode.HashOfBundle | ChangeOutputPath.js:9-18 | `hashCode("bundle")` is 769601666 |
| OutputPlugin.DecimalOfBundleHash | ChangeOutputPath.js:4 | 769601666 is written as the text "769601666" |
| OutputPlugin.Apply | ChangeOutputPath.js:2-6 | `apply` appends one callback named "changeOut" after the existing ones and keeps those in front |
| OutputPlugin.ApplyDecides | ChangeOutputPath.js:3-5 | Once the hook with that callback has been called, the output path is the hashed path, whatever the earlier callbacks set |
| OutputPlugin.OutputPathIdentifiesHash | ChangeOutputPath.js:4 | Two hash values give the same "./dist/<hash>.js" path exactly when they are equal |
| OutputPlugin.HashedOutputPath | ChangeOutputPath.js:4 | No contract of its own; `HashedOutputPathValue` states its value |
| OutputPlugin.HashedOutputPathValue | ChangeOutputPath.js:3-5 | The path the callback sets is "./dist/769601666.js" |
| Loaders.ReversedPipeIsCompose | index.js:53-56 | Running the reversed loader array front to back applies the last declared loader first: f0(f1(...f(n-1)(source))) |
| Loaders.ApplyRule | index.js:52-60 | A rule whose test fails changes nothing. A matching single loader is applied once and the rule stays as it is. A matching array is stored reversed, and the source becomes its backwards composition |
| Loaders.ApplyRules | index.js:49-62 | Its own contract states only that the rule list keeps its length; what it stores and computes is stated by `ApplyRulesStores`, `NoMatchUnchanged` and `ApplyRulesAppend` |
| Loaders.ApplyRulesStores | index.js:49-62 | After a file, every matching array is stored reversed and every other rule is left as it was |
| Loaders.NoMatchUnchanged | index.js:52 | A file no rule matches keeps its text, and the rule list is unchanged |
| Loaders.ApplyRulesAppend | index.js:49-62 | Rules apply in declaration order: later rules act on the output of earlier ones |
| Loaders.AlternatingChain | index.js:53-56 | Of two matching files, the first runs the array back to front and the second front to back, and then the rule is as configured again |
| Loaders.RulesRestoredAfterTwoFiles | index.js:49-62 | Two files matched by the same rules leave the whole rule list as configured |
| Graph.CreateAsset | index.js:37-83 | The asset takes the counter's value as its id, the counter advances by one (`id++`), and the mapping starts empty |
| Graph.MappingOfMeaning | index.js:91-95 | An asset's mapping has exactly its imported specifiers as keys, and each maps to the id of the child made for its last occurrence |
| Graph.DuplicateImportKeepsLater | index.js:91-95 | For a specifier imported twice, the mapping holds the id at the later occurrence's child position `Base + j2` or beyond, never the earlier one's `Base + j1`. That both occurrences have a child at those positions is stated by `ChildAt` in `Graph.CreateGraph` |
| Graph.BaseGrows | index.js:90-96 | If every visited asset has an import, the queue holds more than one asset per visited asset, so the queue never drains |
| Graph.LinkOne | index.js:91-95 | One import visit appends a child with the next id and the resolved path, records `mapping[spec]` = that id on the visited asset, and leaves every other asset unchanged |
| Graph.LinkChildren | index.js:91-96 | Visiting asset i appends one fresh child per import, at positions Base(i) + j in import order. It fills asset i's mapping with those ids, leaving its path, code, imports and id as they were. Every other existing asset is unchanged, and every earlier fact is kept |
| Graph.Finished | index.js:90-99 | In a fully visited list every mapping value lies strictly between its owner's index and the list length. An always-importing environment cannot produce such a list |
| Graph.CreateGraph | index.js:87-100 | On success the entry comes first with id 0 and element k has id k. The length is 1 + the number of import occurrences. Each child sits at its breadth-first position with its resolved path, mapping values are valid larger indices, and each asset was built under the rule state its creation order gives. A result is a fully visited worklist of at most `fuel` assets. Running out of fuel means a worklist of more than `fuel` assets whose first `fuel` assets are visited exists, so the source's loop does not finish within `fuel` visits. If every source text imports something, there is no result; if none does and `fuel` is at least 1, the result is the entry alone |
| Hooks.SetAllIsLast | index.js:119-123 | Several `ChangeOutputPath` calls leave the last argument as `outputPath` |
| Hooks.Call | index.js:124 | No contract of its own; `CallIsLastOverride` and `CallAppend` state what it computes |
| Hooks.CallIsLastOverride | index.js:117-124 | After `emitFile.call`, the path is the last override made by any callback, or the initial value if none was made |
| Hooks.CallAppend | index.js:124 | Callbacks registered later run after, and act on the result of, those registered earlier |
| Hooks.LastTapWins | index.js:124 | A callback registered last that overrides the path decides it |
| Emit.ApplyPlugin | index.js:33-35 | A plugin's `apply` only appends callbacks; those already registered stay first |
| Emit.InitPlugins | index.js:31-36 | Registering all plugins keeps earlier registrations in front |
| Emit.InitPluginsAppend | index.js:31-36 | Plugins listed later register their callbacks later |
| Emit.Project | index.js:106-113 | One record per asset, in graph order, carrying its id, code and mapping |
| Emit.Build | index.js:102-126 | The records are the projection. The output path is "./dist/bundle.js" unless a callback overrides it, and then it is the last override |
| Emit.ChangeOutputPathDecides | index.js:117-124 | With `ChangeOutputPath` registered last, the file goes to the hashed path whatever the earlier plugins do |
| Runtime.Require | dist/bundle.js:2-14 | `require(id)` reads the entry stored under id: a missing id fails. A completed run starts with that id's factory and touches only table keys |
| Runtime.LocalRequire | dist/bundle.js:7-10 | `localRequire(spec)` runs the module the current mapping gives for spec; a specifier missing from the mapping fails |
| Runtime.RequireAll | dist/bundle.js:12 | A factory's requires run in order, and each completed one adds at least its own module to the trace |
| Runtime.Bootstrap | dist/bundle.js:16 | The bootstrap runs id 0 first |
| Runtime.RequireAllAppend | dist/bundle.js:2-14 | No state survives a call: the run of a factory body is the run of its first part followed by the run of the rest |
| Runtime.RequireTwiceRunsTwice | dist/bundle.js:4-13 | No cache: requiring the same specifier twice runs the module and its dependencies twice |
| Runtime.WellFormedOnlyOverflows | dist/bundle.js:2-10 | In a table whose requires are all mapped and whose mapping values are all keys, a run can only stop by overflowing the stack |
| Runtime.WellFormedBodyOnlyOverflows | dist/bundle.js:7-12 | The same for the requires of one factory |
| Runtime.RankedCompletes | dist/bundle.js:2-16 | A well-formed table over ids below n whose mappings point to larger ids completes from any key on a stack of n - key frames |
| Runtime.RankedBodyCompletes | dist/bundle.js:7-12 | The same for the requires of one factory |
| Bundles.BundleTableWellFormed | dist/bundle.js:20-68 | The keys are exactly 0, 1, 2; every required specifier is mapped, and every mapping value is a key that is larger than its owner |
| Bundles.BundleTableNumbered | dist/bundle.js:22-65 | The mappings `{"./foo.js":1}`, `{"./bar.js":2}`, `{}` are the breadth-first numbering |
| Bundles.BundleTableRuns | dist/bundle.js:16-65 | The bootstrap starts the factories 0, 1, 2 in that order and completes |
| Bundles.HashedTableWellFormed | dist/769601666.js:22-80 | The keys are exactly 0, 1, 2, 3; every required specifier is mapped, every mapping value is a larger key, and modules 2 and 3 have empty mappings |
| Bundles.HashedTableNumbered | dist/769601666.js:40-62 | Module 0's two imports get ids 1 and 2, and module 1's import gets id 3: breadth-first numbering |
| Bundles.HashedTableRuns | dist/769601666.js:16-80 | The bootstrap starts factories 0, 1, 3, 2 in that order and completes |
| Prototype.ProtoRequire | example/bundle.js:2-9 | `require(filePath)` fails on a path not in the table; a completed run starts with that path's factory |
| Prototype.ProtoRequireAll | example/bundle.js:7 | A factory's calls of the global `require` run in order and touch only table keys |
| Prototype.ProtoIsIdentityMapped | example/bundle.js:2-9 | The prototype behaves like the generated loader over the same table with every mapping the identity, so its factories get the same global `require` |
| Prototype.ProtoAllIsIdentityMapped | example/bundle.js:7 | The same for one factory's calls |
| Prototype.ExampleFacts | example/bundle.js:11-30 | "./main.js" and "./foo.js" are keys, and the bootstrap runs main.js and then foo.js |
| Bundler.JsonTest | index.js:19 | No contract of its own: `/\.json$/.test(path)` holds when the path ends in ".json"; `ConfiguredRulesApply` uses it |
| Bundler.ConfiguredRulesApply | index.js:15-23 | The configured rule runs `jsonLoader` once on files ending in ".json", leaves other files alone, and is never changed |
| Bundler.ConfiguredOutputPath | index.js:24 | With the configured plugins, the bundle is written to "./dist/769601666.js" |
| Bundler.TableOf | index.js:115 | No contract of its own; `TableOfNumbered` states what it holds |
| Bundler.TableOfNumbered | index.js:115 | The emitted table of a position-numbered list holds exactly ids 0..n-1, each with its asset's imports and mapping |
| Bundler.TableBaseIsBase | index.js:90-95 | The table's breadth-first positions equal the worklist's |
| Bundler.TableMatchesRecords | index.js:106-115 | The table the template writes and the records it receives describe the same assets: keys 0..n-1, and entry k's mapping is record k's mapping |
| Bundler.BuiltBundleRuns | index.js:127-129 | The bundle of a finished graph has ids 0..n-1, is well formed and breadth-first numbered, and its bootstrap completes on a stack of n frames |
| Bundler.RunBundler | index.js:127-129 | The whole program writes to "./dist/769601666.js". The records and the table are those of a fully visited worklist of at most `fuel` assets, built with the configured rules. The table has keys 0..n-1, record k has id k, and entry k carries record k's mapping. The bundle is well formed and its bootstrap completes. Running out of fuel means the worklist outgrows `fuel`. If every source text imports something, nothing is written |

## Left out

- File I/O (`fs.readFileSync`, `fs.writeFileSync`, reading `bundle.ejs`) is left out because it is a side effect. A file's text is a parameter (`Env.read`). The written path and records are returned values. A read error is not modelled.
- Babel parsing, traversal and `transformFromAst` come from external libraries. They appear as one opaque function from transformed text to code and import list (`Env.compile`).
- `Env.compile` is total, so a parse or transform error, which aborts the build at index.js:65-80, is not modelled.
- `ejs.render` comes from an external library. `bundle.ejs` is not part of this model. The table it writes is modelled by `Bundler.TableOf`, and the rendered text is not modelled.
- `path.resolve` comes from an external library. It is an opaque function of the fixed directory and the specifier (`Env.resolve`). It is only ever given `"./example"`, so it cannot see the importer.
- `jsonLoader` is not shown in the source, so it is an opaque string-to-string function. `loaderContext.addDeps` only logs.
- The internals of tapable's `SyncHook` are library code. A hook is the ordered list of its callbacks, and a callback is the list of paths it passes to `ChangeOutputPath`. A callback cannot read the current path.
- tapble.js is a demo of the library's asynchronous hooks, with no bundler logic.
- Factory bodies (`console.log`, `_interopRequireDefault`, `Object.defineProperty`, the `exports` values) are reduced to the ordered specifiers each factory requires.
- A loader that throws would abort the build. This is not modelled, because loaders are total functions here.
- A callback on `emitFile` that throws would abort `build` before the file is written (index.js:124). This is not modelled, because a callback is a list of paths.
- HashCode.HashCodeLoop: takes a Dafny `string`, whose characters are Unicode scalar values. A JavaScript string holding an unpaired surrogate is a legal argument to `hashCode` but cannot be passed, so the contract covers only well-formed UTF-16 text.
- JavaScript objects used as maps are modelled as Dafny maps, which have no inherited keys. In `modules[filePath]` (example/bundle.js:3) a key such as "toString" or "constructor" finds an inherited function, which JavaScript calls as a factory without a fault, where `Prototype.ProtoRequire` reports `MissingModule`. In `mapping[filePath]` (dist/bundle.js:8) such a key yields a function, and the following `modules[id]` lookup fails with a TypeError, where `Runtime.LocalRequire` reports `UnmappedSpecifier`.
- `asset.mapping[ralativePath] = child.id` (index.js:94) is ignored by JavaScript when the specifier is "__proto__". `Graph.MappingOf` records that key like any other.
- Loaders.Rule: `test` is a function of the path. A RegExp with the `g` or `y` flag keeps `lastIndex` between calls, so its result for the same path can change from one file to the next, and `Loaders.AlternatingChain` and `Loaders.RulesRestoredAfterTwoFiles` need not hold for such a rule. The configured `/\.json$/` has neither flag.
- A loader is a function of the source text. A loader that keeps state between calls, or reads `this` beyond `addDeps`, is not modelled.
- Two rules sharing one loader array object would see each other's `reverse()`. This is not modelled: each rule owns its array.
- Graph.CreateGraph: visits at most `fuel` assets and then reports `OutOfFuel`, where the source loops without bound. `OutOfFuel` is proved to mean that the worklist outgrows `fuel`. Non-termination is proved only for environments in which every source text `compile` could be given has an import, not for a reachable import cycle in general.
- Bundler.TableOf: the require list of each factory is taken to be the asset's `deps`. The CommonJS transform also emits a `require` for `export ... from` declarations, which `deps` and `mapping` do not record, and merges repeated imports of one source into one `require`. The assumption holds only for modules whose only module syntax is `import` declarations of distinct sources. The "bootstrap completes" of `Bundler.BuiltBundleRuns` and `Bundler.RunBundler` holds under this assumption.
- Runtime.Require: recursion depth is bounded by `fuel`, standing for the JavaScript stack. Running out is reported as `StackOverflow`.
- Bundler.RunBundler: reports `Diverged` when the graph runs out of fuel. It proves divergence only for environments in which every source text `compile` could be given has an import, not for a reachable import cycle in general.

=== FILE: bundler.dfy ===
/** The top level of index.js: the configuration (one rule running
    `jsonLoader` on paths ending in ".json", one `ChangeOutputPath`
    plugin), then `initPlugins()`, `createGraph()` and `build(graph)`. The
    last part connects the graph to the loader of the bundle it becomes. */
module Bundler {
  import opened Loaders
  import opened Graph
  import opened Emit
  import opened Runtime
  import opened Bundles
  import OutputPlugin

  /** `/\.json$/.test(path)`. */
  predicate JsonTest(path: string)
  {
    |path| >= 5 && path[|path| - 5..] == ".json"
  }

  /** `webpackConfig.module.rules`; `jsonLoader` lives outside this model. */
  function ConfiguredRules(jsonLoader: Loader): seq<Rule>
  {
    [Rule(JsonTest, Single(jsonLoader))]
  }

  /** `webpackConfig.plugins`. */
  const ConfiguredPlugins: seq<Plugin> := [ChangeOutputPath]

  /** The configured rule runs `jsonLoader` once on a ".json" file,
      leaves every other file alone, and is itself never changed. */
  lemma ConfiguredRulesApply(jsonLoader: Loader, path: string, source: string)
    ensures ApplyRules(ConfiguredRules(jsonLoader), path, source) ==
              Applied(ConfiguredRules(jsonLoader), if JsonTest(path) then jsonLoader(source) else source)
  {
  }

  /** The configured build writes to ./dist/769601666.js. */
  lemma ConfiguredOutputPath(graph: seq<Asset>)
    ensures Build(graph, InitPlugins(ConfiguredPlugins, [])).outputPath == "./dist/769601666.js"
  {
    ChangeOutputPathDecides([], graph);
    assert [] + ConfiguredPlugins == ConfiguredPlugins;
    OutputPlugin.HashedOutputPathValue();
  }

  /** The table literal the template writes: `"id": [factory, mapping]`
      for every asset in order, the factory of an asset requiring its
      imports in source order, a later duplicate key winning. */
  function TableOf(graph: seq<Asset>): Table<nat>
  {
    if |graph| == 0 then map[]
    else TableOf(graph[..|graph| - 1])[graph[|graph| - 1].id := Entry(graph[|graph| - 1].deps, graph[|graph| - 1].mapping)]
  }

  /** For a list numbered by position, the table has exactly the ids
      0 .. n-1, each holding its asset's imports and mapping. */
  lemma {:induction false} TableOfNumbered(graph: seq<Asset>)
    requires forall k :: 0 <= k < |graph| ==> graph[k].id == k
    ensures forall k :: k in TableOf(graph) <==> 0 <= k < |graph|
    ensures forall k :: 0 <= k < |graph| ==> TableOf(graph)[k] == Entry(graph[k].deps, graph[k].mapping)
  {
    if |graph| > 0 {
      var init := graph[..|graph| - 1];
      TableOfNumbered(init);
    }
  }

  lemma {:induction false} TableBaseIsBase(graph: seq<Asset>, k: nat)
    requires forall j :: 0 <= j < |graph| ==> graph[j].id == j
    requires k <= |graph|
    ensures forall j :: 0 <= j < k ==> j in TableOf(graph)
    ensures TableBase(TableOf(graph), k) == Base(graph, k)
  {
    TableOfNumbered(graph);
    if k > 0 {
      TableBaseIsBase(graph, k - 1);
    }
  }

  /** What `CreateGraph` promises of a finished list. */
  ghost predicate BuiltShape(q: seq<Asset>)
  {
    && |q| >= 1
    && (forall k :: 0 <= k < |q| ==> q[k].id == k)
    && (forall k :: 0 <= k < |q| ==> LinkedAt(q, k))
    && (forall k, s :: 0 <= k < |q| && s in q[k].mapping ==> k < q[k].mapping[s] < |q|)
  }

  /** The bundle made from a finished graph has ids 0 .. n-1, is well
      formed and numbered breadth first, and its bootstrap runs to the
      end without a fault on a stack of n frames. */
  lemma BuiltBundleRuns(q: seq<Asset>)
    requires BuiltShape(q)
    ensures var t := TableOf(q);
            && (forall k :: k in t <==> 0 <= k < |q|)
            && WellFormed(t) && Ranked(t)
            && BfsNumbered(t, |q|)
            && Bootstrap(t, |q|).Done?
  {
    var t := TableOf(q);
    TableOfNumbered(q);
    forall k, s | k in t && s in t[k].required ensures s in t[k].mapping {
      assert LinkedAt(q, k);
      MappingOfMeaning(q[k].deps, Base(q, k));
    }
    forall k | 0 <= k < |q| ensures t[k].mapping == MappingOf(t[k].required, TableBase(t, k)) {
      assert LinkedAt(q, k);
      TableBaseIsBase(q, k);
    }
    RankedCompletes(t, |q|, 0, |q|);
  }

  /** The table and the emitted records describe the same assets: both
      are indexed 0 .. n-1, and entry k's mapping is record k's mapping. */
  lemma TableMatchesRecords(q: seq<Asset>)
    requires forall k :: 0 <= k < |q| ==> q[k].id == k
    ensures forall k :: k in TableOf(q) <==> 0 <= k < |Project(q)|
    ensures forall k :: 0 <= k < |Project(q)| ==>
              Project(q)[k].id == k && TableOf(q)[k].mapping == Project(q)[k].mapping
  {
    TableOfNumbered(q);
  }

  datatype Bundled = Written(emitted: Emitted, table: Table<nat>) | Diverged

  /** The whole program: register the plugins, build the graph with the
      configured rules, build the output. `fuel` bounds the assets the
      graph may visit; the source itself has no bound. */
  method RunBundler(env: Env, jsonLoader: Loader, fuel: nat) returns (r: Bundled)
    ensures r.Written? ==> r.emitted.outputPath == "./dist/769601666.js"
    ensures r.Written? ==> |r.emitted.data| >= 1 && r.emitted.data[0].id == 0
    ensures r.Written? ==> WellFormed(r.table) && Bootstrap(r.table, |r.emitted.data|).Done?
    ensures r.Written? ==> forall k :: k in r.table <==> 0 <= k < |r.emitted.data|
    ensures r.Written? ==> forall k :: 0 <= k < |r.emitted.data| ==>
              r.emitted.data[k].id == k && r.table[k].mapping == r.emitted.data[k].mapping
    ensures r.Written? ==> |r.emitted.data| <= fuel
    ensures r.Written? ==>
              exists q :: Partial(env, ConfiguredRules(jsonLoader), q, |q|) &&
                          r.emitted.data == Project(q) && r.table == TableOf(q)
    ensures r.Diverged? ==> exists q :: Partial(env, ConfiguredRules(jsonLoader), q, fuel) && fuel < |q|
    ensures AlwaysImports(env) ==> r.Diverged?
  {
    var hook := InitPlugins(ConfiguredPlugins, []);
    var g := CreateGraph(env, ConfiguredRules(jsonLoader), fuel);
    if g.OutOfFuel? {
      return Diverged;
    }
    var q := g.graph;
    BuiltBundleRuns(q);
    TableMatchesRecords(q);
    ConfiguredOutputPath(q);
    var e := Build(q, hook);
    r := Written(e, TableOf(q));
    assert Partial(env, ConfiguredRules(jsonLoader), q, |q|);
  }
}

=== FILE: bundles.dfy ===
/** The module tables of the two generated bundles: dist/bundle.js (no
    loader rule fired) and dist/769601666.js (built with the JSON loader,
    written to the hashed path). Both start with the same loader,
    `Runtime.Require`, and bootstrap with `require(0)`. */
module Bundles {
  import opened Runtime
  import Graph

  /** 1 + the number of specifiers required by modules 0 .. k-1: where
      breadth-first numbering puts the first import of module k. */
  function TableBase(t: Table<nat>, k: nat): nat
    requires forall j :: 0 <= j < k ==> j in t
  {
    if k == 0 then 1 else TableBase(t, k - 1) + |t[k - 1].required|
  }

  /** The table holds ids 0 .. n-1 and numbers imports the way
      `createGraph` does: module k's j-th import is id TableBase(t, k) + j,
      the last occurrence of a repeated specifier winning. */
  ghost predicate BfsNumbered(t: Table<nat>, n: nat)
  {
    && (forall k :: k in t <==> 0 <= k < n)
    && (forall k :: 0 <= k < n ==> t[k].mapping == Graph.MappingOf(t[k].required, TableBase(t, k)))
  }

  /** dist/bundle.js: main.js imports foo.js, foo.js imports bar.js. */
  const BundleTable: Table<nat> := map[
    0 := Entry(["./foo.js"], map["./foo.js" := 1]),
    1 := Entry(["./bar.js"], map["./bar.js" := 2]),
    2 := Entry([], map[])]

  /** dist/769601666.js: main.js imports foo.js and para.json, foo.js
      imports bar.js. */
  const HashedTable: Table<nat> := map[
    0 := Entry(["./foo.js", "./para.json"], map["./foo.js" := 1, "./para.json" := 2]),
    1 := Entry(["./bar.js"], map["./bar.js" := 3]),
    2 := Entry([], map[]),
    3 := Entry([], map[])]

  lemma BundleTableWellFormed()
    ensures BundleTable.Keys == {0, 1, 2}
    ensures WellFormed(BundleTable) && Ranked(BundleTable)
  {
  }

  lemma BundleTableNumbered()
    ensures BfsNumbered(BundleTable, 3)
  {
  }

  /** The bootstrap starts the factories of ids 0, 1, 2 in that order. */
  lemma BundleTableRuns()
    ensures Bootstrap(BundleTable, 3) == Done([0, 1, 2])
  {
  }

  /** Modules without imports carry empty mappings. */
  lemma HashedTableWellFormed()
    ensures HashedTable.Keys == {0, 1, 2, 3}
    ensures WellFormed(HashedTable) && Ranked(HashedTable)
    ensures HashedTable[2].mapping == map[] && HashedTable[3].mapping == map[]
  {
  }

  /** main.js's two imports get the consecutive ids 1 and 2, foo.js's one
      import the next id, 3. */
  lemma HashedTableNumbered()
    ensures BfsNumbered(HashedTable, 4)
  {
  }

  /** The bootstrap starts main.js, foo.js, bar.js (id 3), then para.json
      (id 2): depth first, in each factory's require order. */
  lemma HashedTableRuns()
    ensures Bootstrap(HashedTable, 4) == Done([0, 1, 3, 2])
  {
  }
}

=== FILE: emit.dfy ===
/** `initPlugins` and `build` from index.js: plugins register their hook
    callbacks in configuration order; `build` projects every asset to
    `{id, code, mapping}`, starts `outputPath` at "./dist/bundle.js", and
    lets the `emitFile` callbacks overwrite it before the file is written.
    Rendering the template and writing the file are left to the caller:
    the result is the path and the records the template receives. */
module Emit {
  import opened Graph
  import opened Hooks
  import OutputPlugin

  /** A plugin: `ChangeOutputPath`, or any other object whose `apply`
      taps `emitFile` with the given callbacks. */
  datatype Plugin = ChangeOutputPath | Tapping(taps: seq<Tap>)

  /** `plugin.apply(hooks)`. */
  function ApplyPlugin(p: Plugin, hook: SyncHook): (r: SyncHook)
    ensures |r| >= |hook| && r[..|hook|] == hook
  {
    match p
    case ChangeOutputPath => OutputPlugin.Apply(hook)
    case Tapping(ts) => hook + ts
  }

  /** `initPlugins()`: `plugins.forEach(plugin => plugin.apply(hooks))`. */
  function InitPlugins(plugins: seq<Plugin>, hook: SyncHook): (r: SyncHook)
    ensures |r| >= |hook| && r[..|hook|] == hook
  {
    if |plugins| == 0 then hook else InitPlugins(plugins[1..], ApplyPlugin(plugins[0], hook))
  }

  /** Plugins listed later register later. */
  lemma {:induction false} InitPluginsAppend(p1: seq<Plugin>, p2: seq<Plugin>, hook: SyncHook)
    ensures InitPlugins(p1 + p2, hook) == InitPlugins(p2, InitPlugins(p1, hook))
  {
    if |p1| > 0 {
      assert (p1 + p2)[1..] == p1[1..] + p2;
      InitPluginsAppend(p1[1..], p2, ApplyPlugin(p1[0], hook));
    } else {
      assert p1 + p2 == p2;
    }
  }

  const DefaultOutputPath: string := "./dist/bundle.js"

  /** What the template receives for one asset. */
  datatype Record = Record(id: nat, code: string, mapping: map<string, nat>)

  /** The path written to and the records rendered into it. */
  datatype Emitted = Emitted(outputPath: string, data: seq<Record>)

  /** `graph.map(({id, code, mapping}) => ({id, code, mapping}))`: one
      record per asset, in graph order, without the path and the imports. */
  function Project(graph: seq<Asset>): (data: seq<Record>)
    ensures |data| == |graph|
    ensures forall k :: 0 <= k < |graph| ==>
              data[k].id == graph[k].id && data[k].code == graph[k].code && data[k].mapping == graph[k].mapping
  {
    if |graph| == 0 then [] else [Record(graph[0].id, graph[0].code, graph[0].mapping)] + Project(graph[1..])
  }

  /** `build(graph)`. */
  function Build(graph: seq<Asset>, hook: SyncHook): (e: Emitted)
    ensures e.data == Project(graph)
    ensures |AllOverrides(hook)| == 0 ==> e.outputPath == DefaultOutputPath
    ensures |AllOverrides(hook)| > 0 ==> e.outputPath == Last(AllOverrides(hook))
  {
    CallIsLastOverride(hook, DefaultOutputPath);
    Emitted(Call(hook, DefaultOutputPath), Project(graph))
  }

  /** Once `ChangeOutputPath` has been applied, no plugin before it
      matters: the file goes to the hashed path unless a plugin after it
      overrides again. */
  lemma ChangeOutputPathDecides(before: seq<Plugin>, graph: seq<Asset>)
    ensures Build(graph, InitPlugins(before + [ChangeOutputPath], [])).outputPath == OutputPlugin.HashedOutputPath()
  {
    InitPluginsAppend(before, [ChangeOutputPath], []);
    var h := InitPlugins(before, []);
    assert [ChangeOutputPath][1..] == [];
    assert InitPlugins([ChangeOutputPath], h) == OutputPlugin.Apply(h);
    OutputPlugin.ApplyDecides(h);
  }
}

=== FILE: graph.dfy ===
/** `createAsset` and `createGraph` from index.js, as written: a worklist
    over a list that grows while it is iterated, ids from one counter that
    starts at 0, no deduplication, and every specifier resolved against the
    fixed directory "./example" rather than the importer's directory. */
module Graph {
  import opened Loaders

  type Path = string

  /** The entry file `createGraph` starts from. */
  const EntryPath: Path := "./example/main.js"
  /** The directory every specifier is resolved against. */
  const ResolveDir: Path := "./example"

  /** What babel makes of a transformed source: the code `transformFromAst`
      emits, and the import specifiers the ImportDeclaration visitor
      collects, in source order. */
  datatype Compiled = Compiled(code: string, deps: seq<string>)

  /** The collaborators `createGraph` calls but does not define:
      `fs.readFileSync`, the babel parse/traverse/transform pipeline, and
      `path.resolve`. */
  datatype Env = Env(read: Path -> string, compile: string -> Compiled, resolve: (Path, string) -> Path)

  /** `{filePath, code, deps, mapping, id}`. */
  datatype Asset = Asset(filePath: Path, code: string, deps: seq<string>, mapping: map<string, nat>, id: nat)

  /** The state `createAsset` reads and changes: the global `id` counter and
      the configured rules, whose loader arrays `reverse()` mutates. */
  datatype Builder = Builder(nextId: nat, rules: seq<Rule>)

  datatype Outcome = Built(graph: seq<Asset>, rules: seq<Rule>) | OutOfFuel

  /** `createAsset(filePath)`: run the loader rules over the file's text,
      compile it, and take the counter's value as the id (`id++`). */
  function CreateAsset(env: Env, b: Builder, p: Path): (r: (Asset, Builder))
    ensures r.0.id == b.nextId && r.1.nextId == b.nextId + 1
    ensures r.0.filePath == p && r.0.mapping == map[]
    ensures |r.1.rules| == |b.rules|
  {
    var applied := ApplyRules(b.rules, p, env.read(p));
    var c := env.compile(applied.source);
    (Asset(p, c.code, c.deps, map[], b.nextId), Builder(b.nextId + 1, applied.rules))
  }

  /** The rule list after the first `k` assets of `q` have been created. */
  function RulesBefore(env: Env, rules0: seq<Rule>, q: seq<Asset>, k: nat): seq<Rule>
    requires k <= |q|
  {
    if k == 0 then rules0
    else ApplyRules(RulesBefore(env, rules0, q, k - 1), q[k - 1].filePath, env.read(q[k - 1].filePath)).rules
  }

  /** 1 + the number of import occurrences in the first `k` assets: the
      position at which the children of asset `k` are appended. */
  function Base(q: seq<Asset>, k: nat): nat
    requires k <= |q|
  {
    if k == 0 then 1 else Base(q, k - 1) + |q[k - 1].deps|
  }

  /** The mapping an asset ends up with when its `deps` are visited in
      order and the j-th one becomes id `base + j`: `mapping[spec] = id`,
      a later occurrence overwriting an earlier one. */
  function MappingOf(deps: seq<string>, base: nat): map<string, nat>
  {
    if |deps| == 0 then map[]
    else MappingOf(deps[..|deps| - 1], base)[deps[|deps| - 1] := base + |deps| - 1]
  }

  /** The position of the last occurrence of `s` in `deps`. */
  function LastIndex(deps: seq<string>, s: string): (j: nat)
    requires s in deps
    ensures j < |deps| && deps[j] == s
    ensures forall j' :: j < j' < |deps| ==> deps[j'] != s
  {
    if deps[|deps| - 1] == s then |deps| - 1 else LastIndex(deps[..|deps| - 1], s)
  }

  /** Whether asset `k` of `q` is what `createAsset` built for its path at
      the moment it was the k-th asset created. */
  ghost predicate Made(env: Env, rules0: seq<Rule>, q: seq<Asset>, k: nat)
    requires k < |q|
  {
    var a := CreateAsset(env, Builder(k, RulesBefore(env, rules0, q, k)), q[k].filePath).0;
    q[k].code == a.code && q[k].deps == a.deps && q[k].id == a.id
  }

  /** Two lists that agree on the paths and imports of their first `k` assets. */
  ghost predicate Agree(q: seq<Asset>, q': seq<Asset>, k: nat)
  {
    k <= |q| && k <= |q'| &&
    forall j :: 0 <= j < k ==> q[j].filePath == q'[j].filePath && q[j].deps == q'[j].deps
  }

  /** Asset `k` is visited: its mapping holds the ids of its children. */
  ghost predicate LinkedAt(q: seq<Asset>, k: nat)
    requires k < |q|
  {
    q[k].mapping == MappingOf(q[k].deps, Base(q, k))
  }

  /** The j-th import of asset `k` became the asset at `Base(q, k) + j`,
      built from the path the import resolves to. */
  ghost predicate ChildAt(env: Env, q: seq<Asset>, k: nat, j: nat)
    requires k < |q| && j < |q[k].deps|
  {
    Base(q, k) + j < |q| && q[Base(q, k) + j].filePath == env.resolve(ResolveDir, q[k].deps[j])
  }

  /** The children of asset `k` come after it. */
  ghost predicate RankedAt(q: seq<Asset>, k: nat)
    requires k <= |q|
  {
    k < Base(q, k)
  }

  /** The state of the worklist when the first `i` assets have been visited. */
  ghost predicate Partial(env: Env, rules0: seq<Rule>, q: seq<Asset>, i: nat)
  {
    && 1 <= |q| && i <= |q| && q[0].filePath == EntryPath
    && |q| == Base(q, i)
    && (forall k :: 0 <= k < |q| ==> q[k].id == k)
    && (forall k :: 0 <= k < |q| ==> Made(env, rules0, q, k))
    && (forall k :: 0 <= k < i ==> LinkedAt(q, k))
    && (forall k :: i <= k < |q| ==> q[k].mapping == map[])
    && (forall k, j :: 0 <= k < i && 0 <= j < |q[k].deps| ==> ChildAt(env, q, k, j))
    && (forall k :: 0 <= k < i ==> RankedAt(q, k))
  }

  /** Every source text the compiler could be given has no imports. */
  ghost predicate NoImports(env: Env)
  {
    forall s :: env.compile(s).deps == []
  }

  /** Every source text the compiler could be given has an import, not
      only the texts of files reachable from the entry. A reachable cycle
      alone does not meet this. */
  ghost predicate AlwaysImports(env: Env)
  {
    forall s :: env.compile(s).deps != []
  }

  lemma {:induction false} Frame(env: Env, rules0: seq<Rule>, q: seq<Asset>, q': seq<Asset>, k: nat)
    requires Agree(q, q', k)
    ensures Base(q, k) == Base(q', k)
    ensures RulesBefore(env, rules0, q, k) == RulesBefore(env, rules0, q', k)
  {
    if k > 0 {
      Frame(env, rules0, q, q', k - 1);
    }
  }

  lemma {:induction false} BaseMonotone(q: seq<Asset>, k: nat, k': nat)
    requires k <= k' <= |q|
    ensures Base(q, k) <= Base(q, k')
    decreases k' - k
  {
    if k < k' {
      BaseMonotone(q, k, k' - 1);
    }
  }

  lemma {:induction false} BaseGrows(q: seq<Asset>, k: nat)
    requires k <= |q|
    requires forall j :: 0 <= j < k ==> q[j].deps != []
    ensures Base(q, k) >= 1 + k
  {
    if k > 0 {
      BaseGrows(q, k - 1);
    }
  }

  /** The keys of `MappingOf` are exactly the specifiers imported, and each
      maps to the id of its LAST occurrence. */
  lemma {:induction false} MappingOfMeaning(deps: seq<string>, base: nat)
    ensures forall s :: s in MappingOf(deps, base) <==> s in deps
    ensures forall s :: s in deps ==> MappingOf(deps, base)[s] == base + LastIndex(deps, s)
  {
    if |deps| > 0 {
      var init := deps[..|deps| - 1];
      MappingOfMeaning(init, base);
      assert deps == init + [deps[|deps| - 1]];
    }
  }

  /** One visit of the `deps.forEach` callback for asset `i`: build the
      child, record `mapping[spec] = child.id` on asset `i`, append the child. */
  function LinkOne(env: Env, q: seq<Asset>, i: nat, spec: string, b: Builder): (r: (seq<Asset>, Builder))
    requires i < |q|
    ensures |r.0| == |q| + 1
    ensures forall k :: 0 <= k < |q| && k != i ==> r.0[k] == q[k]
    ensures r.0[i] == q[i].(mapping := q[i].mapping[spec := b.nextId])
    ensures r.0[|q|].id == b.nextId && r.0[|q|].filePath == env.resolve(ResolveDir, spec)
    ensures r.1.nextId == b.nextId + 1
  {
    var created := CreateAsset(env, b, env.resolve(ResolveDir, spec));
    var cur := q[i];
    (q[i := cur.(mapping := cur.mapping[spec := created.0.id])] + [created.0], created.1)
  }

  /** The state of the inner loop after the first `j` imports of asset `i`
      have been visited, starting from the list `q`. */
  ghost predicate Linking(env: Env, rules0: seq<Rule>, q: seq<Asset>, i: nat, q': seq<Asset>, j: nat, b': Builder)
  {
    && Partial(env, rules0, q, i) && i < |q|
    && j <= |q[i].deps|
    && |q'| == |q| + j
    && Agree(q, q', |q|)
    && q'[0].filePath == EntryPath
    && Base(q', i) == |q|
    && (forall k :: 0 <= k < |q'| ==> q'[k].id == k)
    && (forall k :: 0 <= k < |q'| ==> Made(env, rules0, q', k))
    && (forall k :: 0 <= k < i ==> LinkedAt(q', k))
    && q'[i].mapping == MappingOf(q[i].deps[..j], |q|)
    && (forall k :: i < k < |q'| ==> q'[k].mapping == map[])
    && (forall k, j' :: 0 <= k < i && 0 <= j' < |q'[k].deps| ==> ChildAt(env, q', k, j'))
    && (forall j' :: 0 <= j' < j ==> ChildAt(env, q', i, j'))
    && (forall k :: 0 <= k <= i ==> RankedAt(q', k))
    && b' == Builder(|q'|, RulesBefore(env, rules0, q', |q'|))
  }

  lemma LinkingStarts(env: Env, rules0: seq<Rule>, q: seq<Asset>, i: nat, b: Builder)
    requires Partial(env, rules0, q, i) && i < |q|
    requires b == Builder(|q|, RulesBefore(env, rules0, q, |q|))
    ensures Linking(env, rules0, q, i, q, 0, b)
  {
  }

  /** Appending a child and updating one mapping changes no earlier
      path or import list, hence no earlier `Base` or rule state. */
  lemma StepFrame(env: Env, rules0: seq<Rule>, q': seq<Asset>, nq: seq<Asset>)
    requires Agree(q', nq, |q'|)
    ensures forall k :: 0 <= k <= |q'| ==> Base(nq, k) == Base(q', k)
    ensures forall k :: 0 <= k <= |q'| ==> RulesBefore(env, rules0, nq, k) == RulesBefore(env, rules0, q', k)
  {
    forall k | 0 <= k <= |q'|
      ensures Base(nq, k) == Base(q', k) && RulesBefore(env, rules0, nq, k) == RulesBefore(env, rules0, q', k)
    {
      Frame(env, rules0, q', nq, k);
    }
  }

  lemma StepMade(env: Env, rules0: seq<Rule>, q: seq<Asset>, i: nat, q': seq<Asset>, j: nat, b': Builder)
    requires Linking(env, rules0, q, i, q', j, b') && j < |q[i].deps|
    ensures var next := LinkOne(env, q', i, q[i].deps[j], b');
            && (forall k :: 0 <= k < |next.0| ==> next.0[k].id == k)
            && (forall k :: 0 <= k < |next.0| ==> Made(env, rules0, next.0, k))
            && next.1 == Builder(|next.0|, RulesBefore(env, rules0, next.0, |next.0|))
  {
    var next := LinkOne(env, q', i, q[i].deps[j], b');
    var nq := next.0;
    assert Agree(q', nq, |q'|);
    StepFrame(env, rules0, q', nq);
    assert Made(env, rules0, nq, |q'|);
    forall k | 0 <= k < |q'| ensures Made(env, rules0, nq, k) {
      assert Made(env, rules0, q', k);
      assert nq[k].filePath == q'[k].filePath && nq[k].code == q'[k].code && nq[k].deps == q'[k].deps;
    }
  }

  lemma StepLinks(env: Env, rules0: seq<Rule>, q: seq<Asset>, i: nat, q': seq<Asset>, j: nat, b': Builder)
    requires Linking(env, rules0, q, i, q', j, b') && j < |q[i].deps|
    ensures var nq := LinkOne(env, q', i, q[i].deps[j], b').0;
            && (forall k :: 0 <= k < i ==> LinkedAt(nq, k))
            && nq[i].mapping == MappingOf(q[i].deps[..j + 1], |q|)
            && (forall k :: i < k < |nq| ==> nq[k].mapping == map[])
  {
    var deps := q[i].deps;
    var nq := LinkOne(env, q', i, deps[j], b').0;
    assert Agree(q', nq, |q'|);
    StepFrame(env, rules0, q', nq);
    assert deps[..j + 1][..j] == deps[..j];
    forall k | 0 <= k < i ensures LinkedAt(nq, k) {
      assert LinkedAt(q', k);
    }
  }

  lemma StepChildren(env: Env, rules0: seq<Rule>, q: seq<Asset>, i: nat, q': seq<Asset>, j: nat, b': Builder)
    requires Linking(env, rules0, q, i, q', j, b') && j < |q[i].deps|
    ensures var nq := LinkOne(env, q', i, q[i].deps[j], b').0;
            && Agree(q, nq, |q|)
            && Base(nq, i) == |q|
            && (forall k, j' :: 0 <= k < i && 0 <= j' < |nq[k].deps| ==> ChildAt(env, nq, k, j'))
            && (forall j' :: 0 <= j' < j + 1 ==> ChildAt(env, nq, i, j'))
            && (forall k :: 0 <= k <= i ==> RankedAt(nq, k))
  {
    var nq := LinkOne(env, q', i, q[i].deps[j], b').0;
    assert Agree(q', nq, |q'|);
    StepFrame(env, rules0, q', nq);
    forall k, j' | 0 <= k < i && 0 <= j' < |nq[k].deps| ensures ChildAt(env, nq, k, j') {
      assert ChildAt(env, q', k, j');
    }
    forall j' | 0 <= j' < j + 1 ensures ChildAt(env, nq, i, j') {
      if j' < j {
        assert ChildAt(env, q', i, j');
      }
    }
    forall k | 0 <= k <= i ensures RankedAt(nq, k) {
      assert RankedAt(q', k);
    }
  }

  lemma LinkingStep(env: Env, rules0: seq<Rule>, q: seq<Asset>, i: nat, q': seq<Asset>, j: nat, b': Builder)
    requires Linking(env, rules0, q, i, q', j, b') && j < |q[i].deps|
    ensures var next := LinkOne(env, q', i, q[i].deps[j], b');
            Linking(env, rules0, q, i, next.0, j + 1, next.1)
  {
    StepMade(env, rules0, q, i, q', j, b');
    StepLinks(env, rules0, q, i, q', j, b');
    StepChildren(env, rules0, q, i, q', j, b');
  }

  lemma LinkingEnds(env: Env, rules0: seq<Rule>, q: seq<Asset>, i: nat, q': seq<Asset>, b': Builder)
    requires i < |q| && Linking(env, rules0, q, i, q', |q[i].deps|, b')
    ensures Partial(env, rules0, q', i + 1)
    ensures |q'| == |q| + |q[i].deps|
  {
    assert q[i].deps[..|q[i].deps|] == q[i].deps;
    assert q'[i].deps == q[i].deps;
  }

  /** No deduplication: for a specifier imported twice by one asset, the
      mapping keeps the position of the later occurrence (or of a still
      later one), never that of the earlier. */
  lemma DuplicateImportKeepsLater(q: seq<Asset>, k: nat, j1: nat, j2: nat)
    requires k < |q| && LinkedAt(q, k)
    requires j1 < j2 < |q[k].deps| && q[k].deps[j1] == q[k].deps[j2]
    ensures q[k].deps[j1] in q[k].mapping
    ensures q[k].mapping[q[k].deps[j1]] >= Base(q, k) + j2
    ensures q[k].mapping[q[k].deps[j1]] != Base(q, k) + j1
  {
    MappingOfMeaning(q[k].deps, Base(q, k));
    var last := LastIndex(q[k].deps, q[k].deps[j1]);
    assert last >= j2;
  }

  /** Visiting asset `i` changed only its mapping, which now maps each
      import to the position of its last occurrence's child, and left
      every other existing asset as it was. */
  ghost predicate Visited(q: seq<Asset>, q': seq<Asset>, i: nat)
    requires i < |q| <= |q'|
  {
    && (forall k :: 0 <= k < |q| && k != i ==> q'[k] == q[k])
    && q'[i] == q[i].(mapping := MappingOf(q[i].deps, |q|))
  }

  /** Visits the imports of asset `i` in order: each one builds a new
      asset, records its id under the specifier, and appends it. */
  method LinkChildren(env: Env, ghost rules0: seq<Rule>, q: seq<Asset>, i: nat, b: Builder)
    returns (q': seq<Asset>, b': Builder)
    requires Partial(env, rules0, q, i) && i < |q|
    requires b == Builder(|q|, RulesBefore(env, rules0, q, |q|))
    ensures Partial(env, rules0, q', i + 1)
    ensures |q'| == |q| + |q[i].deps|
    ensures b' == Builder(|q'|, RulesBefore(env, rules0, q', |q'|))
    ensures Visited(q, q', i)
  {
    var deps := q[i].deps;
    q', b' := q, b;
    LinkingStarts(env, rules0, q, i, b);
    var j := 0;
    while j < |deps|
      invariant Linking(env, rules0, q, i, q', j, b')
      invariant forall k :: 0 <= k < |q| && k != i ==> q'[k] == q[k]
      invariant q'[i] == q[i].(mapping := MappingOf(q[i].deps[..j], |q|))
    {
      LinkingStep(env, rules0, q, i, q', j, b');
      var next := LinkOne(env, q', i, deps[j], b');
      q', b' := next.0, next.1;
      j := j + 1;
    }
    LinkingEnds(env, rules0, q, i, q', b');
    assert q[i].deps[..|deps|] == q[i].deps;
    assert Visited(q, q', i);
  }

  /** The list holding only the entry asset, none visited yet. */
  lemma EntryStarts(env: Env, rules0: seq<Rule>)
    ensures var created := CreateAsset(env, Builder(0, rules0), EntryPath);
            && Partial(env, rules0, [created.0], 0)
            && created.1 == Builder(1, RulesBefore(env, rules0, [created.0], 1))
  {
  }

  /** What a fully visited list satisfies. */
  lemma Finished(env: Env, rules0: seq<Rule>, q: seq<Asset>)
    requires Partial(env, rules0, q, |q|)
    ensures forall k, s :: 0 <= k < |q| && s in q[k].mapping ==> k < q[k].mapping[s] < |q|
    ensures !AlwaysImports(env)
  {
    forall k, s | 0 <= k < |q| && s in q[k].mapping ensures k < q[k].mapping[s] < |q| {
      assert LinkedAt(q, k) && RankedAt(q, k);
      MappingOfMeaning(q[k].deps, Base(q, k));
      BaseMonotone(q, k + 1, |q|);
    }
    if AlwaysImports(env) {
      forall j | 0 <= j < |q| ensures q[j].deps != [] {
        assert Made(env, rules0, q, j);
      }
      BaseGrows(q, |q|);
    }
  }

  /** `createGraph()`: the entry asset first, then every queued asset in
      FIFO order has its imports turned into new assets appended to the
      queue. The source has no bound and never returns on an import cycle;
      here `fuel` bounds the number of assets visited. */
  method CreateGraph(env: Env, rules0: seq<Rule>, fuel: nat) returns (r: Outcome)
    ensures r.Built? ==> |r.graph| >= 1 && r.graph[0].filePath == EntryPath && r.graph[0].id == 0
    ensures r.Built? ==> forall k :: 0 <= k < |r.graph| ==> r.graph[k].id == k
    ensures r.Built? ==> |r.graph| == Base(r.graph, |r.graph|)
    ensures r.Built? ==> forall k :: 0 <= k < |r.graph| ==> Made(env, rules0, r.graph, k)
    ensures r.Built? ==> forall k :: 0 <= k < |r.graph| ==> LinkedAt(r.graph, k)
    ensures r.Built? ==> forall k, j :: 0 <= k < |r.graph| && 0 <= j < |r.graph[k].deps| ==>
              ChildAt(env, r.graph, k, j)
    ensures r.Built? ==> forall k, s :: 0 <= k < |r.graph| && s in r.graph[k].mapping ==>
              k < r.graph[k].mapping[s] < |r.graph|
    ensures r.Built? ==> r.rules == RulesBefore(env, rules0, r.graph, |r.graph|)
    ensures r.Built? ==> Partial(env, rules0, r.graph, |r.graph|) && |r.graph| <= fuel
    ensures r.OutOfFuel? ==> exists q :: Partial(env, rules0, q, fuel) && fuel < |q|
    ensures AlwaysImports(env) ==> r.OutOfFuel?
    ensures NoImports(env) && fuel >= 1 ==> r.Built? && |r.graph| == 1
  {
    EntryStarts(env, rules0);
    var created := CreateAsset(env, Builder(0, rules0), EntryPath);
    var q := [created.0];
    var b := created.1;
    var i := 0;
    var f := fuel;
    while i < |q|
      invariant Partial(env, rules0, q, i)
      invariant b == Builder(|q|, RulesBefore(env, rules0, q, |q|))
      invariant i + f == fuel
      invariant NoImports(env) ==> |q| == 1
      decreases f
    {
      if f == 0 {
        assert Partial(env, rules0, q, fuel) && fuel < |q|;
        return OutOfFuel;
      }
      ghost var before := q;
      q, b := LinkChildren(env, rules0, q, i, b);
      if NoImports(env) {
        assert Made(env, rules0, before, i);
      }
      i, f := i + 1, f - 1;
    }
    Finished(env, rules0, q);
    return Built(q, b.rules);
  }
}

=== FILE: hash_code.dfy ===
/** `hashCode` from ChangeOutputPath.js: a polynomial string hash over the
    UTF-16 code units of its argument, kept below 2^31 by a conditional
    remainder. Every intermediate value is below 31 * 2^31 + 2^16 < 2^36,
    so the JavaScript doubles are exact and unbounded integers model them. */
module HashCode {
  import opened JsString

  /** `t` in the source. */
  const Modulus: nat := 0x8000_0000
  /** The threshold above which the loop reduces `h`. */
  const MaxSigned: nat := 0x7FFF_FFFF

  /** One iteration of the loop: multiply, add, and reduce only when the
      value exceeds the threshold. */
  function Step(h: nat, c: CodeUnit): nat
  {
    var h' := 31 * h + c;
    if h' > MaxSigned then h' % Modulus else h'
  }

  /** The value of `h` once the loop has consumed the code units `u`. */
  function Fold(u: seq<CodeUnit>): nat
  {
    if |u| == 0 then 0 else Step(Fold(u[..|u| - 1]), u[|u| - 1])
  }

  /** `hashCode(str)`. */
  function Hash(str: string): (h: nat)
    ensures h < Modulus
  {
    Fold(Utf16(str))
  }

  /** The polynomial in Horner form, before any reduction. */
  function Horner(u: seq<CodeUnit>): nat
  {
    if |u| == 0 then 0 else 31 * Horner(u[..|u| - 1]) + u[|u| - 1]
  }

  function Pow31(k: nat): nat
  {
    if k == 0 then 1 else 31 * Pow31(k - 1)
  }

  /** The sum of c_i * 31^(n-1-i) over the code units c_0 .. c_(n-1). */
  function PolySum(u: seq<CodeUnit>): nat
  {
    if |u| == 0 then 0 else u[0] * Pow31(|u| - 1) + PolySum(u[1..])
  }

  /** The conditional `%=` is an unconditional reduction: a value at or
      below the threshold is already below the modulus. */
  lemma StepIsMod(h: nat, c: CodeUnit)
    ensures Step(h, c) == (31 * h + c) % Modulus
    ensures Step(h, c) < Modulus
  {
  }

  /** Reducing the previous accumulator first does not change the next one. */
  lemma ReduceEarly(a: nat, c: CodeUnit)
    ensures (31 * (a % Modulus) + c) % Modulus == (31 * a + c) % Modulus
  {
  }

  /** After every iteration `h` is the Horner polynomial reduced mod 2^31. */
  lemma {:induction false} FoldIsHornerMod(u: seq<CodeUnit>)
    ensures Fold(u) == Horner(u) % Modulus
  {
    if |u| > 0 {
      var p, c := u[..|u| - 1], u[|u| - 1];
      FoldIsHornerMod(p);
      StepIsMod(Fold(p), c);
      ReduceEarly(Horner(p), c);
    }
  }

  lemma {:induction false} PolySumSnoc(p: seq<CodeUnit>, c: CodeUnit)
    ensures PolySum(p + [c]) == 31 * PolySum(p) + c
  {
    if |p| > 0 {
      var a, rest := p[0], p[1..];
      assert (p + [c])[1..] == rest + [c];
      PolySumSnoc(rest, c);
      assert Pow31(|p|) == 31 * Pow31(|p| - 1);
      assert a * Pow31(|p|) == 31 * (a * Pow31(|p| - 1));
    }
  }

  /** Horner's rule evaluates the polynomial sum. */
  lemma {:induction false} HornerIsPolySum(u: seq<CodeUnit>)
    ensures Horner(u) == PolySum(u)
  {
    if |u| > 0 {
      var p, c := u[..|u| - 1], u[|u| - 1];
      HornerIsPolySum(p);
      assert u == p + [c];
      PolySumSnoc(p, c);
    }
  }

  /** `hashCode(str)` is the polynomial sum of the code units of `str`,
      reduced mod 2^31. */
  lemma HashIsPolySum(str: string)
    ensures Hash(str) == PolySum(Utf16(str)) % Modulus
  {
    FoldIsHornerMod(Utf16(str));
    HornerIsPolySum(Utf16(str));
  }

  /** Appending one code unit advances the hash by one reduced step. */
  lemma HashSnoc(u: seq<CodeUnit>, c: CodeUnit)
    ensures Fold(u + [c]) == (31 * Fold(u) + c) % Modulus
  {
  }

  /** The loop of `hashCode` as written: `h` starts at 0, each code unit
      is folded in, and `h %= t` runs only when `h` exceeds 2^31 - 1. */
  method HashCodeLoop(str: string) returns (h: nat)
    ensures h == PolySum(Utf16(str)) % Modulus
    ensures h < Modulus
  {
    var u := Utf16(str);
    var len := |u|;
    var t := Modulus;
    h := 0;
    var i := 0;
    while i < len
      invariant 0 <= i <= len
      invariant h == Fold(u[..i])
    {
      assert u[..i + 1][..i] == u[..i];
      h := 31 * h + u[i];
      if h > 2147483647 {
        h := h % t;
      }
      i := i + 1;
    }
    assert u[..len] == u;
    FoldIsHornerMod(u);
    HornerIsPolySum(u);
    if len > 0 {
      StepIsMod(Fold(u[..len - 1]), u[len - 1]);
    }
  }

  /** `hashCode("")` is 0: the loop body never runs. */
  lemma HashOfEmpty()
    ensures Hash("") == 0
  {
  }

  /** `hashCode("bundle")` is 769601666, the name of dist/769601666.js. */
  lemma HashOfBundle()
    ensures Hash("bundle") == 769601666
  {
    var u := Utf16("bundle");
    BmpUtf16("bundle");
    assert u == [98, 117, 110, 100, 108, 101];
    assert u[..1] == [98] && u[..2][..1] == u[..1];
    assert Fold(u[..1]) == 98;
    assert u[..3][..2] == u[..2];
    assert Fold(u[..2]) == 3155;
    assert u[..4][..3] == u[..3];
    assert Fold(u[..3]) == 97915;
    assert u[..5][..4] == u[..4];
    assert Fold(u[..4]) == 3035465;
    assert u[..6][..5] == u[..5];
    assert Fold(u[..5]) == 94099523;
    assert u[..6] == u;
  }
}

=== FILE: hooks.dfy ===
/** The one `SyncHook` the bundler uses, `hooks.emitFile`, reduced to what
    its usage depends on: `tap` appends a callback, `call` runs the
    callbacks in registration order with the same context. The context's
    only operation is `ChangeOutputPath(path)`, which overwrites
    `outputPath`; a callback cannot read the current value, so a callback
    is the ordered list of paths it passes to that operation. */
module Hooks {

  datatype Tap = Tap(name: string, overrides: seq<string>)

  type SyncHook = seq<Tap>

  function Last(s: seq<string>): string
    requires |s| > 0
  {
    s[|s| - 1]
  }

  /** `outputPath` after a sequence of `ChangeOutputPath` calls. */
  function SetAll(paths: seq<string>, current: string): string
  {
    if |paths| == 0 then current else SetAll(paths[1..], paths[0])
  }

  /** `hooks.emitFile.call(context)` with `outputPath` at `current`. */
  function Call(hook: SyncHook, current: string): string
  {
    if |hook| == 0 then current else Call(hook[1..], SetAll(hook[0].overrides, current))
  }

  /** Every `ChangeOutputPath` argument, in the order the calls happen. */
  function AllOverrides(hook: SyncHook): seq<string>
  {
    if |hook| == 0 then [] else hook[0].overrides + AllOverrides(hook[1..])
  }

  lemma {:induction false} SetAllIsLast(paths: seq<string>, current: string)
    ensures SetAll(paths, current) == if |paths| == 0 then current else Last(paths)
  {
    if |paths| > 0 {
      SetAllIsLast(paths[1..], paths[0]);
    }
  }

  /** The last override wins; with none, the path keeps its value. */
  lemma {:induction false} CallIsLastOverride(hook: SyncHook, current: string)
    ensures Call(hook, current) == if |AllOverrides(hook)| == 0 then current else Last(AllOverrides(hook))
  {
    if |hook| > 0 {
      SetAllIsLast(hook[0].overrides, current);
      CallIsLastOverride(hook[1..], SetAll(hook[0].overrides, current));
    }
  }

  /** Callbacks registered later run later, on the result of the earlier ones. */
  lemma {:induction false} CallAppend(h1: SyncHook, h2: SyncHook, current: string)
    ensures Call(h1 + h2, current) == Call(h2, Call(h1, current))
  {
    if |h1| > 0 {
      assert (h1 + h2)[1..] == h1[1..] + h2;
      CallAppend(h1[1..], h2, SetAll(h1[0].overrides, current));
    } else {
      assert h1 + h2 == h2;
    }
  }

  /** A callback that overrides the path, registered last, decides it. */
  lemma LastTapWins(hook: SyncHook, t: Tap, current: string)
    requires |t.overrides| > 0
    ensures Call(hook + [t], current) == Last(t.overrides)
  {
    CallAppend(hook, [t], current);
    SetAllIsLast(t.overrides, Call(hook, current));
  }
}

=== FILE: js_string.dfy ===
/** JavaScript string facts the bundler relies on: the UTF-16 code units
    that `String.prototype.charCodeAt` reads, and the decimal text a number
    becomes when it is concatenated to a string. */
module JsString {

  /** A UTF-16 code unit, the value `charCodeAt` returns. */
  type CodeUnit = x: int | 0 <= x < 0x1_0000

  /** The code units JavaScript stores for one Unicode scalar value:
      itself below U+10000, a surrogate pair above. */
  function Units(c: char): (u: seq<CodeUnit>)
    ensures 1 <= |u| <= 2
    ensures |u| == 1 <==> (c as int) < 0x1_0000
    ensures |u| == 1 ==> u[0] == c as int
  {
    if (c as int) < 0x1_0000 then [c as int]
    else
      var v := c as int - 0x1_0000;
      [0xD800 + v / 0x400, 0xDC00 + v % 0x400]
  }

  /** The code units of a string literal, i.e. what `str.length` counts
      and `str.charCodeAt(i)` indexes. */
  function Utf16(s: string): (u: seq<CodeUnit>)
    ensures |s| <= |u| <= 2 * |s|
  {
    if |s| == 0 then [] else Units(s[0]) + Utf16(s[1..])
  }

  /** Strings of the Basic Multilingual Plane, such as every literal in
      the bundler, have one code unit per character. */
  ghost predicate Bmp(s: string)
  {
    forall i :: 0 <= i < |s| ==> (s[i] as int) < 0x1_0000
  }

  lemma {:induction false} BmpUtf16(s: string)
    requires Bmp(s)
    ensures |Utf16(s)| == |s|
    ensures forall i :: 0 <= i < |s| ==> Utf16(s)[i] == s[i] as int
  {
    if |s| > 0 {
      assert Bmp(s[1..]) by {
        forall i | 0 <= i < |s[1..]| ensures (s[1..][i] as int) < 0x1_0000 {
          assert s[1..][i] == s[i + 1];
        }
      }
      BmpUtf16(s[1..]);
    }
  }

  predicate IsDigit(c: char)
  {
    '0' <= c <= '9'
  }

  function DigitChar(d: nat): (c: char)
    requires d < 10
    ensures IsDigit(c)
    ensures c as int - '0' as int == d
  {
    ('0' as int + d) as char
  }

  /** The decimal text of a non-negative integer, as `"" + n` produces it
      for the integers `hashCode` can return. */
  function Decimal(n: nat): (s: string)
    ensures |s| >= 1
    ensures forall i :: 0 <= i < |s| ==> IsDigit(s[i])
    ensures s[0] == '0' ==> n == 0
    decreases n
  {
    if n < 10 then [DigitChar(n)] else Decimal(n / 10) + [DigitChar(n % 10)]
  }

  /** Reads a string of digits back as a number. */
  function ParseDecimal(s: string): nat
    requires forall i :: 0 <= i < |s| ==> IsDigit(s[i])
  {
    if |s| == 0 then 0
    else
      assert IsDigit(s[|s| - 1]);
      10 * ParseDecimal(s[..|s| - 1]) + (s[|s| - 1] as int - '0' as int)
  }

  /** Decimal loses nothing: parsing its output gives the number back. */
  lemma {:induction false} ParseDecimalInverts(n: nat)
    ensures ParseDecimal(Decimal(n)) == n
    decreases n
  {
    if n >= 10 {
      var s := Decimal(n);
      assert s[..|s| - 1] == Decimal(n / 10);
      ParseDecimalInverts(n / 10);
    }
  }

  /** Different numbers have different decimal texts. */
  lemma DecimalInjective(m: nat, n: nat)
    requires Decimal(m) == Decimal(n)
    ensures m == n
  {
    ParseDecimalInverts(m);
    ParseDecimalInverts(n);
  }
}

=== FILE: loaders.dfy ===
/** The loader-rule loop of `createAsset` (index.js): every configured
    rule whose test matches the file path transforms the source text, in
    declaration order. A rule's `use` is one loader or an array of loaders;
    an array is reversed IN PLACE and then run front to back, so the rule
    list a later file sees has that array in the opposite order. */
module Loaders {

  /** A loader transforms source text. The `loaderContext` it is called
      with only logs, so it is not part of the model. */
  type Loader = string -> string

  datatype Use = Single(loader: Loader) | Chain(loaders: seq<Loader>)

  /** `{test, use}`; `test` stands for the regular expression's `test`. */
  datatype Rule = Rule(test: string -> bool, use: Use)

  /** The rule list after a file has been processed, and its source text. */
  datatype Applied = Applied(rules: seq<Rule>, source: string)

  function Reverse<T>(s: seq<T>): (r: seq<T>)
    ensures |r| == |s|
    ensures forall i :: 0 <= i < |s| ==> r[i] == s[|s| - 1 - i]
  {
    if |s| == 0 then [] else Reverse(s[1..]) + [s[0]]
  }

  lemma ReverseReverse<T>(s: seq<T>)
    ensures Reverse(Reverse(s)) == s
  {
  }

  /** Runs loaders front to back, feeding each the previous output, as
      `forEach` does with `source = fn.call(loaderContext, source)`. */
  function Pipe(fs: seq<Loader>, source: string): string
  {
    if |fs| == 0 then source else Pipe(fs[1..], fs[0](source))
  }

  /** The composition fs[0](fs[1](... fs[n-1](source))): the array read
      from its last declared loader backwards. */
  function Compose(fs: seq<Loader>, source: string): string
  {
    if |fs| == 0 then source else fs[0](Compose(fs[1..], source))
  }

  lemma {:induction false} PipeAppend(a: seq<Loader>, b: seq<Loader>, source: string)
    ensures Pipe(a + b, source) == Pipe(b, Pipe(a, source))
  {
    if |a| > 0 {
      assert (a + b)[1..] == a[1..] + b;
      PipeAppend(a[1..], b, a[0](source));
    } else {
      assert a + b == b;
    }
  }

  /** Running the reversed array front to back applies the last declared
      loader first: the "pipe from the last stage backward" order. */
  lemma {:induction false} ReversedPipeIsCompose(fs: seq<Loader>, source: string)
    ensures Pipe(Reverse(fs), source) == Compose(fs, source)
  {
    if |fs| > 0 {
      ReversedPipeIsCompose(fs[1..], source);
      assert Reverse(fs) == Reverse(fs[1..]) + [fs[0]];
      PipeAppend(Reverse(fs[1..]), [fs[0]], source);
    }
  }

  /** How a rule is stored after a file has been processed: an array that
      the path matches ends up reversed; everything else is untouched. */
  function Stored(rule: Rule, path: string): Rule
  {
    if rule.test(path) && rule.use.Chain? then Rule(rule.test, Chain(Reverse(rule.use.loaders))) else rule
  }

  /** One iteration of `loaders.forEach`: the rule as it is stored after
      the iteration, and the source text after it. */
  function ApplyRule(rule: Rule, path: string, source: string): (r: (Rule, string))
    ensures r.0 == Stored(rule, path)
    ensures !rule.test(path) ==> r == (rule, source)
    ensures rule.test(path) && rule.use.Single? ==> r == (rule, rule.use.loader(source))
    ensures rule.test(path) && rule.use.Chain? ==>
              r.0.use == Chain(Reverse(rule.use.loaders)) && r.1 == Compose(rule.use.loaders, source)
  {
    if !rule.test(path) then (rule, source)
    else match rule.use
      case Single(f) => (rule, f(source))
      case Chain(fs) =>
        ReversedPipeIsCompose(fs, source);
        (Rule(rule.test, Chain(Reverse(fs))), Pipe(Reverse(fs), source))
  }

  /** The whole `loaders.forEach`, rules visited in declaration order. */
  function ApplyRules(rules: seq<Rule>, path: string, source: string): (r: Applied)
    ensures |r.rules| == |rules|
  {
    if |rules| == 0 then Applied([], source)
    else
      var first := ApplyRule(rules[0], path, source);
      var rest := ApplyRules(rules[1..], path, first.1);
      Applied([first.0] + rest.rules, rest.source)
  }

  /** After a file, each rule is stored as `Stored` says: arrays the path
      matches are reversed, every other rule is left as it was. */
  lemma {:induction false} ApplyRulesStores(rules: seq<Rule>, path: string, source: string)
    ensures forall k :: 0 <= k < |rules| ==> ApplyRules(rules, path, source).rules[k] == Stored(rules[k], path)
  {
    if |rules| > 0 {
      var first := ApplyRule(rules[0], path, source);
      ApplyRulesStores(rules[1..], path, first.1);
    }
  }

  /** A file no rule matches keeps its source text and leaves the rule
      list as configured. */
  lemma {:induction false} NoMatchUnchanged(rules: seq<Rule>, path: string, source: string)
    requires forall k :: 0 <= k < |rules| ==> !rules[k].test(path)
    ensures ApplyRules(rules, path, source) == Applied(rules, source)
  {
    if |rules| > 0 {
      NoMatchUnchanged(rules[1..], path, source);
      assert rules == [rules[0]] + rules[1..];
    }
  }

  /** Rules run in declaration order: the rules of a longer list act on
      the output of the rules before them. */
  lemma {:induction false} ApplyRulesAppend(r1: seq<Rule>, r2: seq<Rule>, path: string, source: string)
    ensures ApplyRules(r1 + r2, path, source) ==
              var a := ApplyRules(r1, path, source);
              var b := ApplyRules(r2, path, a.source);
              Applied(a.rules + b.rules, b.source)
  {
    if |r1| > 0 {
      var first := ApplyRule(r1[0], path, source);
      assert (r1 + r2)[0] == r1[0];
      assert (r1 + r2)[1..] == r1[1..] + r2;
      ApplyRulesAppend(r1[1..], r2, path, first.1);
      var tail := ApplyRules(r1[1..], path, first.1);
      var b := ApplyRules(r2, path, tail.source);
      assert ApplyRules(r1, path, source) == Applied([first.0] + tail.rules, tail.source);
      assert [first.0] + (tail.rules + b.rules) == ([first.0] + tail.rules) + b.rules;
    } else {
      assert r1 + r2 == r2;
    }
  }

  /** Two files that the same rules match, processed one after the other:
      the second sees every array back in declaration order, so it runs
      them front to back where the first ran them back to front, and
      afterwards the rule list is exactly as configured again. */
  lemma AlternatingChain(test: string -> bool, fs: seq<Loader>, p1: string, s1: string, p2: string, s2: string)
    requires test(p1) && test(p2)
    ensures var first := ApplyRule(Rule(test, Chain(fs)), p1, s1);
            var second := ApplyRule(first.0, p2, s2);
            first.1 == Compose(fs, s1) && second.1 == Pipe(fs, s2) && second.0 == Rule(test, Chain(fs))
  {
    ReverseReverse(fs);
  }

  /** The same for a whole rule list: processing two files that match the
      same rules restores the configured list. */
  lemma {:induction false} RulesRestoredAfterTwoFiles(rules: seq<Rule>, p1: string, s1: string, p2: string, s2: string)
    requires forall k :: 0 <= k < |rules| ==> (rules[k].test(p1) <==> rules[k].test(p2))
    ensures ApplyRules(ApplyRules(rules, p1, s1).rules, p2, s2).rules == rules
  {
    var once := ApplyRules(rules, p1, s1).rules;
    var twice := ApplyRules(once, p2, s2).rules;
    ApplyRulesStores(rules, p1, s1);
    ApplyRulesStores(once, p2, s2);
    forall k | 0 <= k < |rules| ensures twice[k] == rules[k] {
      if rules[k].use.Chain? {
        ReverseReverse(rules[k].use.loaders);
      }
    }
  }
}

=== FILE: output_plugin.dfy ===
/** The `ChangeOutputPath` plugin of ChangeOutputPath.js: its `apply` taps
    `emitFile` with a callback that sets the output path to
    "./dist/" + hashCode("bundle") + ".js". */
module OutputPlugin {
  import opened JsString
  import opened HashCode
  import opened Hooks

  const TapName: string := "changeOut"

  /** The file under ./dist/ named after a hash value. */
  function OutputPathFor(h: nat): string
  {
    "./dist/" + Decimal(h) + ".js"
  }

  /** The path the callback passes to `ChangeOutputPath`. */
  function HashedOutputPath(): string
  {
    OutputPathFor(Hash("bundle"))
  }

  /** The file name identifies the hash: distinct hash values give
      distinct output paths. */
  lemma OutputPathIdentifiesHash(m: nat, n: nat)
    ensures OutputPathFor(m) == OutputPathFor(n) <==> m == n
  {
    if OutputPathFor(m) == OutputPathFor(n) {
      var a, b := OutputPathFor(m), OutputPathFor(n);
      assert Decimal(m) == a[7..|a| - 3];
      assert Decimal(n) == b[7..|b| - 3];
      DecimalInjective(m, n);
    }
  }

  /** `apply(hooks)`: registers one callback after those already there. */
  function Apply(hook: SyncHook): (r: SyncHook)
    ensures |r| == |hook| + 1 && r[..|hook|] == hook && r[|hook|].name == TapName
  {
    hook + [Tap(TapName, [HashedOutputPath()])]
  }

  /** Once the callback has run, the output path is the hashed one,
      whatever the earlier callbacks left. */
  lemma ApplyDecides(hook: SyncHook)
    ensures forall current :: Call(Apply(hook), current) == HashedOutputPath()
  {
    forall current ensures Call(Apply(hook), current) == HashedOutputPath() {
      LastTapWins(hook, Tap(TapName, [HashedOutputPath()]), current);
    }
  }

  lemma DecimalOfBundleHash()
    ensures Decimal(769601666) == "769601666"
  {
    assert Decimal(7) == "7";
    assert Decimal(76) == "76";
    assert Decimal(769) == "769";
    assert Decimal(7696) == "7696";
    assert Decimal(76960) == "76960";
    assert Decimal(769601) == "769601";
    assert Decimal(7696016) == "7696016";
    assert Decimal(76960166) == "76960166";
  }

  /** The callback writes to dist/769601666.js. */
  lemma HashedOutputPathValue()
    ensures HashedOutputPath() == "./dist/769601666.js"
  {
    HashOfBundle();
    DecimalOfBundleHash();
  }
}

=== FILE: prototype.dfy ===
/** The hand-written prototype loader of example/bundle.js: modules are
    keyed by path, `require(filePath)` looks the factory up directly, and
    every factory is handed that same global `require`, so there is no
    mapping between a specifier and a key. As in the generated loader,
    each call makes a fresh module and nothing is cached. */
module Prototype {
  import opened Runtime

  /** Path -> the specifiers its factory requires. */
  type ProtoTable = map<string, seq<string>>

  /** `require(filePath)`. */
  function ProtoRequire(t: ProtoTable, path: string, fuel: nat): (r: Run<string>)
    ensures path !in t ==> r == Failed(MissingModule(path))
    ensures r.Done? ==> |r.trace| >= 1 && r.trace[0] == path
    ensures r.Done? ==> forall x :: x in r.trace ==> x in t
    decreases fuel, 0
  {
    if path !in t then Failed(MissingModule(path))
    else if fuel == 0 then Failed(StackOverflow)
    else
      match ProtoRequireAll(t, t[path], fuel - 1)
      case Done(tr) => Done([path] + tr)
      case Failed(e) => Failed(e)
  }

  /** A factory body: its calls of the global `require`, in order. */
  function ProtoRequireAll(t: ProtoTable, specs: seq<string>, fuel: nat): (r: Run<string>)
    ensures r.Done? ==> |r.trace| >= |specs|
    ensures r.Done? ==> forall x :: x in r.trace ==> x in t
    decreases fuel, 1, |specs|
  {
    if |specs| == 0 then Done([])
    else
      match ProtoRequire(t, specs[0], fuel)
      case Failed(e) => Failed(e)
      case Done(tr1) =>
        match ProtoRequireAll(t, specs[1..], fuel)
        case Failed(e) => Failed(e)
        case Done(tr2) => Done(tr1 + tr2)
  }

  function Identity(specs: seq<string>): map<string, string>
  {
    map s | s in specs :: s
  }

  /** The prototype table as a table of the generated loader whose every
      mapping sends a specifier to itself. */
  function Lift(t: ProtoTable): Table<string>
  {
    map p | p in t :: Entry(t[p], Identity(t[p]))
  }

  /** Passing the global `require` is the generated loader with identity
      mappings: both start the same factories in the same order. */
  lemma {:induction false} ProtoIsIdentityMapped(t: ProtoTable, path: string, fuel: nat)
    ensures ProtoRequire(t, path, fuel) == Require(Lift(t), path, fuel)
    decreases fuel, 0
  {
    if path in t && fuel > 0 {
      ProtoAllIsIdentityMapped(t, t[path], t[path], fuel - 1);
    }
  }

  lemma {:induction false} ProtoAllIsIdentityMapped(t: ProtoTable, owner: seq<string>, specs: seq<string>, fuel: nat)
    requires forall s :: s in specs ==> s in owner
    ensures ProtoRequireAll(t, specs, fuel) == RequireAll(Lift(t), Identity(owner), specs, fuel)
    decreases fuel, 1, |specs|
  {
    if |specs| > 0 {
      assert specs[0] in owner;
      ProtoIsIdentityMapped(t, specs[0], fuel);
      ProtoAllIsIdentityMapped(t, owner, specs[1..], fuel);
    }
  }

  /** The table of example/bundle.js. */
  const ExampleTable: ProtoTable := map["./foo.js" := [], "./main.js" := ["./foo.js"]]

  /** The bootstrap key and the required key are both in the table, and
      the bootstrap runs main.js and then foo.js. */
  lemma ExampleFacts()
    ensures "./main.js" in ExampleTable && "./foo.js" in ExampleTable
    ensures ProtoRequire(ExampleTable, "./main.js", 2) == Done(["./main.js", "./foo.js"])
  {
  }
}

=== FILE: runtime.dfy ===
/** The module loader the generated bundles start with (dist/bundle.js and
    dist/769601666.js, lines 1-16). `require(id)` looks up `[fn, mapping]`,
    creates a fresh `{exports: {}}`, and runs `fn` with a `localRequire`
    that translates a specifier through `mapping` and calls `require`
    again. There is no cache: every call runs the factory anew.

    A factory is modelled by the ordered list of specifiers it passes to
    `localRequire`; the rest of its body does not affect which modules
    run. A run is described by its trace, the keys of the factories
    started, in order. Keys are generic so that the path-keyed prototype
    loader is an instance too. */
module Runtime {

  /** `[fn, mapping]`, with `fn` reduced to the specifiers it requires. */
  datatype Entry<K> = Entry(required: seq<string>, mapping: map<string, K>)

  type Table<K> = map<K, Entry<K>>

  /** The ways a run stops early. `modules[key]` is undefined for a key
      the table lacks, and destructuring it throws; a specifier missing
      from `mapping` makes `require(undefined)` do the same; unbounded
      recursion overflows the stack, here after `fuel` nested calls. */
  datatype Fault<K> = MissingModule(key: K) | UnmappedSpecifier(spec: string) | StackOverflow

  datatype Run<K> = Done(trace: seq<K>) | Failed(fault: Fault<K>)

  /** `require(key)`. */
  function Require<K>(t: Table<K>, key: K, fuel: nat): (r: Run<K>)
    ensures key !in t ==> r == Failed(MissingModule(key))
    ensures r.Done? ==> |r.trace| >= 1 && r.trace[0] == key
    ensures r.Done? ==> forall x :: x in r.trace ==> x in t
    decreases fuel, 0
  {
    if key !in t then Failed(MissingModule(key))
    else if fuel == 0 then Failed(StackOverflow)
    else
      match RequireAll(t, t[key].mapping, t[key].required, fuel - 1)
      case Done(tr) => Done([key] + tr)
      case Failed(e) => Failed(e)
  }

  /** `localRequire(spec)` inside a factory whose entry has `mapping`:
      runs the module the mapping names for the specifier. */
  function LocalRequire<K>(t: Table<K>, mapping: map<string, K>, spec: string, fuel: nat): (r: Run<K>)
    ensures spec !in mapping ==> r == Failed(UnmappedSpecifier(spec))
    ensures r.Done? ==> spec in mapping && |r.trace| >= 1 && r.trace[0] == mapping[spec]
    ensures r.Done? ==> forall x :: x in r.trace ==> x in t
    decreases fuel, 1
  {
    if spec !in mapping then Failed(UnmappedSpecifier(spec))
    else Require(t, mapping[spec], fuel)
  }

  /** The factory body: its `require` calls, one after another. */
  function RequireAll<K>(t: Table<K>, mapping: map<string, K>, specs: seq<string>, fuel: nat): (r: Run<K>)
    ensures r.Done? ==> forall x :: x in r.trace ==> x in t
    ensures r.Done? ==> |r.trace| >= |specs|
    decreases fuel, 2, |specs|
  {
    if |specs| == 0 then Done([])
    else
      match LocalRequire(t, mapping, specs[0], fuel)
      case Failed(e) => Failed(e)
      case Done(tr1) =>
        match RequireAll(t, mapping, specs[1..], fuel)
        case Failed(e) => Failed(e)
        case Done(tr2) => Done(tr1 + tr2)
  }

  /** The bootstrap `require(0)`. */
  function Bootstrap(t: Table<nat>, fuel: nat): (r: Run<nat>)
    ensures r.Done? ==> 0 in t && |r.trace| >= 1 && r.trace[0] == 0
  {
    Require(t, 0, fuel)
  }

  /** Every specifier a factory requires is a key of its own mapping. */
  ghost predicate RequiresMapped<K>(t: Table<K>)
  {
    forall k, s :: k in t && s in t[k].required ==> s in t[k].mapping
  }

  /** Every mapping value is a key of the table: no dangling id. */
  ghost predicate MappingsClosed<K>(t: Table<K>)
  {
    forall k, s :: k in t && s in t[k].mapping ==> t[k].mapping[s] in t
  }

  ghost predicate WellFormed<K>(t: Table<K>)
  {
    RequiresMapped(t) && MappingsClosed(t)
  }

  /** Every mapping points to a larger id, as breadth-first numbering gives. */
  ghost predicate Ranked(t: Table<nat>)
  {
    forall k, s :: k in t && s in t[k].mapping ==> k < t[k].mapping[s]
  }

  /** With no shared state between calls, the calls of a factory body
      compose: the run of a longer body is the run of its first part
      followed by the run of the rest, each from scratch. */
  lemma {:induction false} RequireAllAppend<K>(t: Table<K>, m: map<string, K>, a: seq<string>, b: seq<string>, fuel: nat)
    ensures RequireAll(t, m, a + b, fuel) ==
              match RequireAll(t, m, a, fuel)
              case Failed(e) => Failed(e)
              case Done(ta) =>
                match RequireAll(t, m, b, fuel)
                case Failed(e) => Failed(e)
                case Done(tb) => Done(ta + tb)
  {
    if |a| == 0 {
      assert a + b == b;
      match RequireAll(t, m, b, fuel)
      case Failed(e) =>
      case Done(tb) => assert [] + tb == tb;
    } else {
      assert (a + b)[0] == a[0];
      assert (a + b)[1..] == a[1..] + b;
      RequireAllAppend(t, m, a[1..], b, fuel);
      match LocalRequire(t, m, a[0], fuel)
      case Failed(e) =>
      case Done(t1) =>
        match RequireAll(t, m, a[1..], fuel)
        case Failed(e) =>
        case Done(ta) =>
          match RequireAll(t, m, b, fuel)
          case Failed(e) =>
          case Done(tb) => assert t1 + (ta + tb) == (t1 + ta) + tb;
    }
  }

  /** No cache: a specifier required twice runs its module, and everything
      that module requires, twice. */
  lemma RequireTwiceRunsTwice<K>(t: Table<K>, m: map<string, K>, spec: string, fuel: nat)
    requires LocalRequire(t, m, spec, fuel).Done?
    ensures RequireAll(t, m, [spec, spec], fuel) ==
              Done(LocalRequire(t, m, spec, fuel).trace + LocalRequire(t, m, spec, fuel).trace)
  {
    var tr := LocalRequire(t, m, spec, fuel).trace;
    assert RequireAll(t, m, [spec], fuel) == Done(tr) by {
      assert [spec][1..] == [];
      assert tr + [] == tr;
    }
    assert [spec, spec] == [spec] + [spec];
    RequireAllAppend(t, m, [spec], [spec], fuel);
  }

  /** In a well-formed table a run can only stop by exhausting the stack. */
  lemma {:induction false} WellFormedOnlyOverflows<K>(t: Table<K>, key: K, fuel: nat)
    requires WellFormed(t) && key in t
    ensures Require(t, key, fuel).Done? || Require(t, key, fuel) == Failed(StackOverflow)
    decreases fuel, 0
  {
    if fuel > 0 {
      WellFormedBodyOnlyOverflows(t, key, t[key].required, fuel - 1);
    }
  }

  lemma {:induction false} WellFormedBodyOnlyOverflows<K>(t: Table<K>, key: K, specs: seq<string>, fuel: nat)
    requires WellFormed(t) && key in t
    requires forall s :: s in specs ==> s in t[key].required
    ensures var r := RequireAll(t, t[key].mapping, specs, fuel); r.Done? || r == Failed(StackOverflow)
    decreases fuel, 1, |specs|
  {
    if |specs| > 0 {
      var m := t[key].mapping;
      assert specs[0] in t[key].required;
      WellFormedOnlyOverflows(t, m[specs[0]], fuel);
      WellFormedBodyOnlyOverflows(t, key, specs[1..], fuel);
    }
  }

  /** A well-formed, ranked table over the ids below `n` runs to completion
      from `key` on a stack of `n - key` frames: there is no cycle. */
  lemma {:induction false} RankedCompletes(t: Table<nat>, n: nat, key: nat, fuel: nat)
    requires WellFormed(t) && Ranked(t)
    requires forall k :: k in t ==> k < n
    requires key in t && fuel >= n - key
    ensures Require(t, key, fuel).Done?
    decreases fuel, 0
  {
    RankedBodyCompletes(t, n, key, t[key].required, fuel - 1);
  }

  lemma {:induction false} RankedBodyCompletes(t: Table<nat>, n: nat, key: nat, specs: seq<string>, fuel: nat)
    requires WellFormed(t) && Ranked(t)
    requires forall k :: k in t ==> k < n
    requires key in t && fuel >= n - key - 1
    requires forall s :: s in specs ==> s in t[key].required
    ensures RequireAll(t, t[key].mapping, specs, fuel).Done?
    decreases fuel, 1, |specs|
  {
    if |specs| > 0 {
      var m := t[key].mapping;
      assert specs[0] in t[key].required;
      RankedCompletes(t, n, m[specs[0]], fuel);
      RankedBodyCompletes(t, n, key, specs[1..], fuel);
    }
  }
}
